=== FILE: README.md ===
# MetadataBasedItemList, modelled in Dafny

This project models the logic of `MetadataBasedItemList`, the React component
of the metadata-based view that shows a collection of files as a virtualized
spreadsheet: a header row, a sticky icon column, a sticky name column, and one
column per metadata field to show, where a hovered cell of an editable column
offers an edit icon and at most one cell at a time holds a field editor.

The component is split into the pieces it is made of:

- `JsValue.dfy` — field values (`null`/`undefined`, string, number, string
  array) and JavaScript truthiness, which the component's `&&` children rely on.
- `Metadata.dfy` — items, metadata fields, column descriptors and props;
  `getMetadataColumnName`, `getItemWithPermissions`, and lodash `find`/`get`
  as first-match search and option-valued access.
- `GridConstants.dfy` — the layout constants (see the assumptions below).
- `ColumnLayout.dfy` — `getColumnWidth` and the row and column counts of
  `render`, with the proof that, when there is at least one metadata column,
  the columns never make the grid narrower than the viewport.
- `Interaction.dfy` — the five-field state and each handler's partial
  `setState` merge as a function from the old state to the new.
- `CellResolver.dfy` — `getGridCellData`, `getGridHeaderData` and the
  header/body dispatch of `cellRenderer`, returning a description of the cell
  instead of JSX.
- `ItemList.dfy` — the component as a class whose five state fields the
  handlers assign in place; each handler's frame names exactly the fields its
  `setState` call mentions.
- `GridProperties.dfy` — lemmas that connect the handlers to what the grid
  shows.

Assumptions. The constants file of the component is not part of this model.
The indices are those the code itself implies: icon column 0, name column 1,
header row 0, two fixed columns (metadata column `i` reads
`metadataColumnsToShow[i - 2]`) and one fixed row (body row `r` reads
`items[r - 1]`). The widths 54, 350 and 250 are assumed values, and no proof
depends on them. `-1` is the "no cell" sentinel, as in the code.

Behaviours of the code worth knowing:
- Saving leaves the state alone: `handleSave` only calls `onMetadataUpdate`
  (MetadataBasedItemList.js:151-159). The edit state is reset by
  `componentDidUpdate` once the parent passes in items that differ.
- Hover is cleared when the pointer leaves any cell, because every cell carries
  the `onMouseLeave` handler (MetadataBasedItemList.js:292).
- The header of the icon column is `undefined` (`NoTitle`), because
  `metadataColumnsToShow[-2]` has no name (MetadataBasedItemList.js:269).
- Clearing the editor's input hides the editor. The editor is shown only while
  the working value is truthy (MetadataBasedItemList.js:222). Once `onChange`
  sets it to `""`, the edited cell shows no value, no edit icon and no editor,
  so it has no cancel or save icon either. It stays edited until the items
  change or an edit is started on another cell; hovering and leaving do not
  end it (`GridProperties.ClearingInputHidesEditor`).
- A numeric value of 0 is shown twice, as "00". The raw-value child
  `!isCellBeingEdited && value` renders the 0 (MetadataBasedItemList.js:214),
  and the icon child `value && isCellEditable && …` evaluates to that same 0
  and renders it again (:215). Likewise, an edited cell whose working value is
  0 shows "0" where the editor would be (:222)
  (`GridProperties.ZeroValueShownTwice`).

## Model

| member | source | states |
|---|---|---|
| Metadata.ItemsOf | src/features/metadata-based-view/MetadataBasedItemList.js:175 | missing `items` default to the empty list |
| Metadata.FieldsOf | src/features/metadata-based-view/MetadataBasedItemList.js:191 | an item's fields are `metadata.enterprise.fields`, or none when that path is missing |
| Metadata.ColumnName | src/features/metadata-based-view/MetadataBasedItemList.js:127-129 | a column's name is the plain string itself or the descriptor's `name` |
| Metadata.ColumnAt | src/features/metadata-based-view/MetadataBasedItemList.js:187 | the descriptor of a grid column exists exactly for offsets inside `metadataColumnsToShow` |
| Metadata.WithPermissions | src/features/metadata-based-view/MetadataBasedItemList.js:114-125 | the augmented item has permissions preview=true and upload=true, and every other field is unchanged; it equals the input exactly when the input's permissions are these two flags set to true |
| Metadata.WithPermissionsIdempotent | src/features/metadata-based-view/MetadataBasedItemList.js:120-124 | augmenting twice equals augmenting once |
| Metadata.FindFieldIndex | src/features/metadata-based-view/MetadataBasedItemList.js:207 | the index found is that of the first field with the column's name; none is found exactly when no field has that name |
| Metadata.FindField | src/features/metadata-based-view/MetadataBasedItemList.js:207-210 | the field found has the requested name, is one of the item's fields, and no earlier field has that name; absent exactly when no field matches |
| ColumnLayout.RowCount | src/features/metadata-based-view/MetadataBasedItemList.js:302-317 | rows = number of items (0 when `items` is missing) + the one header row |
| ColumnLayout.ColumnCount | src/features/metadata-based-view/MetadataBasedItemList.js:310 | columns = number of metadata columns + the two fixed columns |
| ColumnLayout.ColumnWidth | src/features/metadata-based-view/MetadataBasedItemList.js:85-101 | column 0 gets the icon width and column 1 the name width; any metadata column implies n >= 1 and gets max(available / n, minimum), where `AvailableWidth` is the width minus the two sticky columns, which is never below the minimum nor below the equal share |
| ColumnLayout.MetadataColumnsEqual | src/features/metadata-based-view/MetadataBasedItemList.js:97-99 | all metadata columns have the same width |
| ColumnLayout.WidthOfFirstColumns | src/features/metadata-based-view/MetadataBasedItemList.js:85-101 | the first k columns measure icon width + name width + (k - 2) metadata widths |
| ColumnLayout.GridCoversViewport | src/features/metadata-based-view/MetadataBasedItemList.js:97-99 | when there is at least one metadata column, the grid is at least as wide as the viewport, and exactly as wide when the equal share is at least the minimum (otherwise it scrolls) |
| Interaction.InitialState | src/features/metadata-based-view/MetadataBasedItemList.js:103-112 | the initial state has no edited cell, no hovered cell and a null working value |
| Interaction.MouseEnter | src/features/metadata-based-view/MetadataBasedItemList.js:161-165 | the entered cell becomes the only hovered cell; the edited cell and working value are unchanged |
| Interaction.MouseLeave | src/features/metadata-based-view/MetadataBasedItemList.js:167-171 | the hover pair becomes (-1, -1), so no cell is hovered; the edit part is unchanged |
| Interaction.EditIconClick | src/features/metadata-based-view/MetadataBasedItemList.js:136-142 | the clicked cell becomes the only edited cell and its value seeds the working value; hover is unchanged |
| Interaction.CancelEdit | src/features/metadata-based-view/MetadataBasedItemList.js:144-149 | the edit pair becomes (-1, -1); the working value and hover are unchanged |
| Interaction.EditorChange | src/features/metadata-based-view/MetadataBasedItemList.js:230-234 | only the working value changes |
| Interaction.AfterUpdate | src/features/metadata-based-view/MetadataBasedItemList.js:75-83 | items that differ by deep equality reset to the initial state (no edit, no hover, null value); equal items keep the state |
| CellResolver.IsCellEditable | src/features/metadata-based-view/MetadataBasedItemList.js:185-188 | a cell is editable exactly when it is the hovered cell (`HoveredAt`, the `isCellHovered` of :186), is not the edited cell (`EditedAt`, :185), and its column is a descriptor with `canEdit` true (`CanEdit`, :188); a plain-string column is never editable |
| CellResolver.MetadataCell | src/features/metadata-based-view/MetadataBasedItemList.js:205-256 | no content exactly when no field matches the column name; the value shows exactly when the cell is not edited (`EditedAt`, the `isCellBeingEdited` of :185); the edit icon shows exactly when `IsCellEditable` holds and the value is truthy, and it carries (column, row, value); a falsy value is itself rendered in the icon's place, and a truthy value on a non-editable cell leaves it empty; the editor shows exactly when the cell is edited and the working value is truthy, with key id+name, the working value, the field's type and options, and a save of (item, name, value, working value); an edited cell with a falsy working value renders that value in the editor's place, and a cell not edited has nothing there |
| CellResolver.GridCellData | src/features/metadata-based-view/MetadataBasedItemList.js:173-260 | a body cell fails exactly when its row has no item; column 0 is the icon for the name's extension, column 1 the name button for the item, other columns the metadata cell of the column's descriptor |
| CellResolver.GridHeaderData | src/features/metadata-based-view/MetadataBasedItemList.js:262-270 | column 1's header is the Name label, a metadata column's header is its column name, the icon column and columns past the end have none |
| CellResolver.CellContent | src/features/metadata-based-view/MetadataBasedItemList.js:272-279 | row 0 renders the header data, other rows the body cell data |
| ItemList.MetadataBasedItemList.constructor | src/features/metadata-based-view/MetadataBasedItemList.js:69-73 | construction stores the props and yields the initial state |
| ItemList.MetadataBasedItemList.ComponentDidUpdate | src/features/metadata-based-view/MetadataBasedItemList.js:75-83 | the state fields become those of the reset rule applied to the previous and current items |
| ItemList.MetadataBasedItemList.ReceiveProps | src/features/metadata-based-view/MetadataBasedItemList.js:75-83 | new props followed by the update hook: props replaced, state reset exactly when the items differ |
| ItemList.MetadataBasedItemList.HandleItemClick | src/features/metadata-based-view/MetadataBasedItemList.js:131-134 | `onItemClick` receives the item with both permissions set and nothing else changed |
| ItemList.MetadataBasedItemList.HandleEditIconClick | src/features/metadata-based-view/MetadataBasedItemList.js:136-142 | only the edit pair and working value change, as the edit-start rule says |
| ItemList.MetadataBasedItemList.HandleCancelEdit | src/features/metadata-based-view/MetadataBasedItemList.js:144-149 | only the edit pair changes, to (-1, -1); no update call is made |
| ItemList.MetadataBasedItemList.HandleSave | src/features/metadata-based-view/MetadataBasedItemList.js:151-159 | one `onMetadataUpdate` call with (augmented item, field, current value, edited value) in that order, and no state change |
| ItemList.MetadataBasedItemList.HandleMouseEnter | src/features/metadata-based-view/MetadataBasedItemList.js:161-165 | only the hover pair changes, to the entered cell |
| ItemList.MetadataBasedItemList.HandleMouseLeave | src/features/metadata-based-view/MetadataBasedItemList.js:167-171 | only the hover pair changes, to (-1, -1) |
| ItemList.MetadataBasedItemList.HandleEditorChange | src/features/metadata-based-view/MetadataBasedItemList.js:230-234 | only the working value changes |
| GridProperties.GridCellsResolve | src/features/metadata-based-view/MetadataBasedItemList.js:302-317 | every cell inside the row and column counts resolves without the missing-item failure, and each metadata column in range is at least the minimum width |
| GridProperties.PlainColumnsNeverEditable | src/features/metadata-based-view/MetadataBasedItemList.js:187-188 | a plain-string column never offers the edit icon, in any state |
| GridProperties.AtMostOneEditableCell | src/features/metadata-based-view/MetadataBasedItemList.js:185-188 | at most one cell shows the edit icon and at most one shows the editor |
| GridProperties.InitialStateShowsValues | src/features/metadata-based-view/MetadataBasedItemList.js:212-222 | in the initial state no cell has an edit icon or an editor |
| GridProperties.MouseLeaveHidesEditIcons | src/features/metadata-based-view/MetadataBasedItemList.js:167-171 | after mouse leave no cell has an edit icon, and editors are as before |
| GridProperties.HoverKeepsEditors | src/features/metadata-based-view/MetadataBasedItemList.js:222-253 | entering a cell never opens or closes an editor |
| GridProperties.EditIconOpensEditor | src/features/metadata-based-view/MetadataBasedItemList.js:215-222 | clicking a cell's edit icon makes that same cell show the editor seeded with the icon's value, with the value and icon hidden |
| GridProperties.CancelClosesEditor | src/features/metadata-based-view/MetadataBasedItemList.js:144-149 | after cancel no cell shows an editor, and a cell that had one shows its value as when nothing is edited |
| GridProperties.ClearingInputHidesEditor | src/features/metadata-based-view/MetadataBasedItemList.js:212-234 | when the editor's input is cleared to the empty string, the edited cell shows no value, no edit icon and no editor (hence no cancel or save), and hovering or leaving does not end the edit, while starting an edit on another cell does |
| GridProperties.ZeroValueShownTwice | src/features/metadata-based-view/MetadataBasedItemList.js:214-215 | a metadata cell whose field value is the number 0 and that is not edited renders that 0 in both the value slot and the icon slot, and nothing in the editor slot |
| GridProperties.SpreadsheetScenario | src/features/metadata-based-view/MetadataBasedItemList.js:173-270 | for one "a.xlsx" item with Status "Open": headers, icon, name, plain value, edit icon after hover, editor after click, and no content for an unmatched "Owner" column |

## Left out

- React rendering, the JSX trees, `classNames` CSS classes (including the
  row-hover class of `cellRenderer`), the fixed row height and the
  `AutoSizer`/`MultiGrid` virtualization. Cells are described by the
  `CellData`, `Node` and `HeaderData` datatypes instead.
- react-intl messages. The "Name" header is the token `NameLabel`, and tooltips
  are not modelled.
- `Field`, `FileIcon`, `IconWithTooltip` and `PlainButton` are not part of this
  model. They are described by the data they receive. The editor's `onRemove`
  does nothing in the code and is not modelled.
- `getFileExtension` is not part of this model. It is a function parameter
  (`extensionOf`).
- The `onItemClick` and `onMetadataUpdate` callbacks belong to the parent. The
  handlers return the arguments they would pass to them.
- lodash `isEqual` is Dafny equality on datatypes. Property order and
  prototypes are not modelled. lodash `find` is first-match search by name,
  and `get` is an `Option`.
- `setState` is applied at once. React's batching of updates is not modelled.
- Item properties other than id, name, metadata fields and permissions are not
  modelled. The spread in `getItemWithPermissions` would keep them unchanged.
- A column descriptor without `canEdit` is written with `canEdit` false,
  which is how `getProp(..., 'canEdit', false)` reads it. A descriptor is
  assumed to have a `name`.
- ColumnLayout.ColumnWidth: pixel widths are exact reals, with no floating
  point, NaN or Infinity. The model is defined only for indices below the
  column count, because the grid asks for no others. In JavaScript, an index
  of 2 or more with no metadata columns would divide by zero.
- Metadata.WithPermissions: permissions are modelled as the two flags the
  code sets. The items the component receives carry no permissions (the note
  at MetadataBasedItemList.js:116), so the model cannot show that the spread
  replaces a whole permissions object and drops any other flag in it.

=== FILE: CellResolver.dfy ===
/** What a grid cell shows, as a pure function of the props and the interaction
    state (`getGridHeaderData`, `getGridCellData` and the dispatch in
    `cellRenderer`). JSX is replaced by a description of the cell: which
    children of the cell's fragment are present and what their handlers would
    be called with. */
module CellResolver {
  import opened JsValue
  import opened Metadata
  import opened GridConstants
  import opened Interaction
  import opened ColumnLayout

  /** The arguments the edit icon passes to `handleEditIconClick`. */
  datatype EditRequest = EditRequest(columnIndex: int, rowIndex: int, value: Value)

  /** The arguments the save icon passes to `handleSave`. */
  datatype SaveRequest = SaveRequest(item: Item, field: string, currentValue: Value, editedValue: Value)

  /** The field editor with its cancel and save icons: the editor's key, the
      working value it is seeded with, the field type, its options, and the save call. */
  datatype Editor = Editor(dataKey: string, dataValue: Value, fieldType: string, options: seq<string>, save: SaveRequest)

  /** One child expression of a metadata cell, as React renders it. */
  datatype Node = Blank | Text(shown: Value) | EditIcon(onClick: EditRequest) | EditorPanel(editor: Editor)

  /** The content of a body cell; `Undefined` is the `undefined` returned when no field matches. */
  datatype CellData =
    | Undefined
    | FileIcon(extension: string)
    | NameButton(caption: string, item: Item)
    | Fragment(rawValue: Node, editIcon: Node, editor: Node)

  /** The content of a header cell; `NoTitle` is the `undefined` name of a missing column. */
  datatype HeaderData = NameLabel | Title(text: string) | NoTitle

  /** Destructuring `items[rowIndex - 1]` throws when there is no such item. */
  datatype RenderError = ItemUndefined

  datatype Result<+T> = Ok(value: T) | Crash(error: RenderError)

  /** What `cellRenderer` places inside the cell's div. */
  datatype Content = Header(header: HeaderData) | Body(cell: CellData)

  /** React's rendering of a field value placed as a child: null/undefined render nothing. */
  function Render(v: Value): (n: Node)
    ensures n.Blank? <==> v.Absent?
    ensures n.Text? ==> n.shown == v
    ensures !n.EditIcon? && !n.EditorPanel?
  {
    if v.Absent? then Blank else Text(v)
  }

  /** `isCellEditable`: hovered, not under edit, and the column descriptor allows editing. */
  function IsCellEditable(column: Option<ColumnConfig>, s: UiState, columnIndex: int, rowIndex: int): (editable: bool)
    ensures editable <==>
      && columnIndex == s.hoveredColumnIndex && rowIndex == s.hoveredRowIndex
      && !(columnIndex == s.editedColumnIndex && rowIndex == s.editedRowIndex)
      && column.Some? && column.value.Config? && column.value.canEdit
    ensures column.Some? && column.value.Plain? ==> !editable
  {
    !EditedAt(s, columnIndex, rowIndex) && HoveredAt(s, columnIndex, rowIndex) && CanEdit(column)
  }

  /** The `default` branch of `getGridCellData`: a metadata column of one item.
      The children follow JavaScript's `&&`: a falsy left operand is itself the child. */
  function MetadataCell(item: Item, column: Option<ColumnConfig>, s: UiState, columnIndex: int, rowIndex: int): (d: CellData)
    ensures d.Undefined? || d.Fragment?
    ensures d.Undefined? <==> column.None? || FindField(FieldsOf(item), ColumnName(column.value)).None?
    ensures d.Fragment? ==>
      var name := ColumnName(column.value);
      var f := FindField(FieldsOf(item), name).value;
      && (d.rawValue.Text? <==> !EditedAt(s, columnIndex, rowIndex) && !f.value.Absent?)
      && (d.rawValue.Text? ==> d.rawValue.shown == f.value)
      && (d.editIcon.EditIcon? <==> IsCellEditable(column, s, columnIndex, rowIndex) && Truthy(f.value))
      && (d.editIcon.EditIcon? ==> d.editIcon.onClick == EditRequest(columnIndex, rowIndex, f.value))
      && (!Truthy(f.value) ==> d.editIcon == Render(f.value))
      && (Truthy(f.value) && !IsCellEditable(column, s, columnIndex, rowIndex) ==> d.editIcon == Blank)
      && (d.editor.EditorPanel? <==> EditedAt(s, columnIndex, rowIndex) && Truthy(s.valueBeingEdited))
      && (d.editor.EditorPanel? ==>
            d.editor.editor == Editor(item.id + name, s.valueBeingEdited, f.fieldType, f.options.GetOr([]),
                                      SaveRequest(item, name, f.value, s.valueBeingEdited)))
      && (!EditedAt(s, columnIndex, rowIndex) ==> d.editor == Blank)
      && (EditedAt(s, columnIndex, rowIndex) && !Truthy(s.valueBeingEdited) ==> d.editor == Render(s.valueBeingEdited))
      && !d.rawValue.EditIcon? && !d.rawValue.EditorPanel? && !d.editIcon.EditorPanel? && !d.editor.EditIcon?
  {
    if column.None? then Undefined
    else
      var name := ColumnName(column.value);
      match FindField(FieldsOf(item), name)
      case None => Undefined
      case Some(f) =>
        var editing := EditedAt(s, columnIndex, rowIndex);
        var value := f.value;
        Fragment(
          if !editing then Render(value) else Blank,
          if !Truthy(value) then Render(value)
          else if IsCellEditable(column, s, columnIndex, rowIndex) then EditIcon(EditRequest(columnIndex, rowIndex, value))
          else Blank,
          if !editing then Blank
          else if !Truthy(s.valueBeingEdited) then Render(s.valueBeingEdited)
          else EditorPanel(Editor(item.id + name, s.valueBeingEdited, f.fieldType, f.options.GetOr([]),
                                  SaveRequest(item, name, value, s.valueBeingEdited))))
  }

  /** `getGridCellData(columnIndex, rowIndex)` for a body cell. `extensionOf`
      stands for `getFileExtension`, which is not part of this model. */
  function GridCellData(props: Props, s: UiState, extensionOf: string -> string, columnIndex: int, rowIndex: int): (r: Result<CellData>)
    ensures r.Ok? <==> 1 <= rowIndex <= |ItemsOf(props.currentCollection)|
    ensures r.Ok? ==>
      var item := ItemsOf(props.currentCollection)[rowIndex - 1];
      && (columnIndex == FileIconColumnIndex ==> r.value == FileIcon(extensionOf(item.name)))
      && (columnIndex == FileNameColumnIndex ==> r.value == NameButton(item.name, item))
      && (columnIndex != FileIconColumnIndex && columnIndex != FileNameColumnIndex ==>
            r.value == MetadataCell(item, ColumnAt(props.metadataColumnsToShow, columnIndex - FixedColumnsNumber),
                                    s, columnIndex, rowIndex))
  {
    var items := ItemsOf(props.currentCollection);
    if !(0 <= rowIndex - 1 < |items|) then Crash(ItemUndefined)
    else
      var item := items[rowIndex - 1];
      if columnIndex == FileIconColumnIndex then Ok(FileIcon(extensionOf(item.name)))
      else if columnIndex == FileNameColumnIndex then Ok(NameButton(item.name, item))
      else
        var column := ColumnAt(props.metadataColumnsToShow, columnIndex - FixedColumnsNumber);
        Ok(MetadataCell(item, column, s, columnIndex, rowIndex))
  }

  /** `getGridHeaderData(columnIndex)`: the "Name" label over the name column,
      the column's name over a metadata column, and `undefined` elsewhere
      (the icon column has no header text). */
  function GridHeaderData(columns: seq<ColumnConfig>, columnIndex: int): (h: HeaderData)
    ensures columnIndex == FileNameColumnIndex ==> h == NameLabel
    ensures FixedColumnsNumber <= columnIndex < ColumnCount(columns) ==>
      h == Title(ColumnName(columns[columnIndex - FixedColumnsNumber]))
    ensures columnIndex == FileIconColumnIndex || columnIndex >= ColumnCount(columns) ==> h == NoTitle
  {
    if columnIndex == FileNameColumnIndex then NameLabel
    else
      match ColumnAt(columns, columnIndex - FixedColumnsNumber)
      case None => NoTitle
      case Some(c) => Title(ColumnName(c))
  }

  /** `cellRenderer`'s choice between the header and a body cell. */
  function CellContent(props: Props, s: UiState, extensionOf: string -> string, columnIndex: int, rowIndex: int): (r: Result<Content>)
    ensures rowIndex == HeaderRowIndex ==> r == Ok(Header(GridHeaderData(props.metadataColumnsToShow, columnIndex)))
    ensures rowIndex != HeaderRowIndex ==>
      (r.Ok? <==> GridCellData(props, s, extensionOf, columnIndex, rowIndex).Ok?)
    ensures rowIndex != HeaderRowIndex && r.Ok? ==>
      r.value == Body(GridCellData(props, s, extensionOf, columnIndex, rowIndex).value)
  {
    if rowIndex == HeaderRowIndex then Ok(Header(GridHeaderData(props.metadataColumnsToShow, columnIndex)))
    else
      match GridCellData(props, s, extensionOf, columnIndex, rowIndex)
      case Crash(e) => Crash(e)
      case Ok(d) => Ok(Body(d))
  }
}

=== FILE: ColumnLayout.dfy ===
/** Grid geometry: the per-column width callback built by `getColumnWidth`
    and the row and column counts `render` hands to the virtualized grid.
    Pixel widths are exact reals here (no floating point rounding). */
module ColumnLayout {
  import opened JsValue
  import opened Metadata
  import opened GridConstants

  /** `rowCount + FIXED_ROW_NUMBER`: one header row plus one row per item
      (no item rows when `items` is undefined). */
  function RowCount(c: Collection): (n: nat)
    ensures n >= FixedRowNumber
    ensures n - FixedRowNumber == |ItemsOf(c)|
    ensures c.items.None? ==> n == FixedRowNumber
  {
    (if c.items.Some? then |c.items.value| else 0) + FixedRowNumber
  }

  /** `metadataColumnsToShow.length + FIXED_COLUMNS_NUMBER`: icon, name, then one column per descriptor. */
  function ColumnCount(columns: seq<ColumnConfig>): (n: nat)
    ensures n >= FixedColumnsNumber && n - FixedColumnsNumber == |columns|
  {
    |columns| + FixedColumnsNumber
  }

  /** The space left for the metadata columns once the two sticky columns are placed. */
  function AvailableWidth(width: real): real {
    width - FileNameColumnWidth - FileIconColumnWidth
  }

  /** The callback returned by `getColumnWidth(width)`, applied to `index`,
      where `metadataColumns` is `metadataColumnsToShow.length`. The grid only
      asks for the widths of columns it has, so a metadata column index implies
      at least one metadata column and the division is defined. */
  function ColumnWidth(width: real, metadataColumns: nat, index: int): (w: real)
    requires 0 <= index < metadataColumns + FixedColumnsNumber
    ensures index == FileIconColumnIndex ==> w == FileIconColumnWidth
    ensures index == FileNameColumnIndex ==> w == FileNameColumnWidth
    ensures index >= FixedColumnsNumber ==> metadataColumns >= 1
    ensures index >= FixedColumnsNumber ==> w >= MinMetadataColumnWidth
    ensures index >= FixedColumnsNumber ==> w >= AvailableWidth(width) / metadataColumns as real
    ensures index >= FixedColumnsNumber ==> w == MinMetadataColumnWidth || w == AvailableWidth(width) / metadataColumns as real
  {
    if index == FileIconColumnIndex then FileIconColumnWidth
    else if index == FileNameColumnIndex then FileNameColumnWidth
    else
      var share := AvailableWidth(width) / metadataColumns as real;
      if share > MinMetadataColumnWidth then share else MinMetadataColumnWidth
  }

  /** Every metadata column has the same width. */
  lemma MetadataColumnsEqual(width: real, metadataColumns: nat, i: int, j: int)
    requires FixedColumnsNumber <= i < metadataColumns + FixedColumnsNumber
    requires FixedColumnsNumber <= j < metadataColumns + FixedColumnsNumber
    ensures ColumnWidth(width, metadataColumns, i) == ColumnWidth(width, metadataColumns, j)
  {
  }

  /** The sum of the widths of columns 0 .. k-1. */
  function WidthOfFirst(width: real, metadataColumns: nat, k: nat): real
    requires k <= metadataColumns + FixedColumnsNumber
  {
    if k == 0 then 0.0
    else WidthOfFirst(width, metadataColumns, k - 1) + ColumnWidth(width, metadataColumns, k - 1)
  }

  /** The first k columns: the two sticky columns plus k - 2 metadata columns of equal width. */
  lemma {:induction false} WidthOfFirstColumns(width: real, metadataColumns: nat, k: nat)
    requires FixedColumnsNumber <= k <= metadataColumns + FixedColumnsNumber
    ensures metadataColumns >= 1 ==>
      WidthOfFirst(width, metadataColumns, k)
        == FileIconColumnWidth + FileNameColumnWidth
           + (k - FixedColumnsNumber) as real * ColumnWidth(width, metadataColumns, FixedColumnsNumber)
  {
    if metadataColumns >= 1 {
      if k == FixedColumnsNumber {
        assert WidthOfFirst(width, metadataColumns, 1) == FileIconColumnWidth;
      } else {
        WidthOfFirstColumns(width, metadataColumns, k - 1);
        MetadataColumnsEqual(width, metadataColumns, k - 1, FixedColumnsNumber);
      }
    }
  }

  /** With at least one metadata column, the whole grid is never narrower than
      the viewport (with none, only the two sticky columns are sized): the metadata columns
      share the available width equally, and when that share would fall below
      the minimum they keep the minimum and the grid scrolls instead. */
  lemma GridCoversViewport(width: real, metadataColumns: nat)
    requires metadataColumns >= 1
    ensures WidthOfFirst(width, metadataColumns, metadataColumns + FixedColumnsNumber) >= width
    ensures WidthOfFirst(width, metadataColumns, metadataColumns + FixedColumnsNumber) == width
        <==> AvailableWidth(width) / metadataColumns as real >= MinMetadataColumnWidth
  {
    var n := metadataColumns as real;
    var w := ColumnWidth(width, metadataColumns, FixedColumnsNumber);
    var share := AvailableWidth(width) / n;
    WidthOfFirstColumns(width, metadataColumns, metadataColumns + FixedColumnsNumber);
    assert n * share == AvailableWidth(width);
    if share >= MinMetadataColumnWidth {
      assert w == share;
    } else {
      assert w == MinMetadataColumnWidth;
      assert n * w > n * share;
    }
  }
}

=== FILE: GridConstants.dfy ===
/** The layout constants of the metadata grid. The constants file of the
    component is not part of this model: the indices below are the ones the
    component's own code implies (it reads `items[rowIndex - 1]` for body rows
    and `metadataColumnsToShow[columnIndex - FIXED_COLUMNS_NUMBER]` for
    metadata columns), and the three widths are assumed values. No proof in
    this project depends on the values of the widths. */
module GridConstants {
  const FileIconColumnIndex: int := 0
  const FileNameColumnIndex: int := 1
  const HeaderRowIndex: int := 0
  const FixedColumnsNumber: nat := 2
  const FixedRowNumber: nat := 1

  const FileIconColumnWidth: real := 54.0
  const FileNameColumnWidth: real := 350.0
  const MinMetadataColumnWidth: real := 250.0

  /** Sentinel the component stores in an index field for "no cell". */
  const NoIndex: int := -1
}

=== FILE: GridProperties.dfy ===
/** Properties that tie the interaction state machine to what the grid shows:
    which cells carry an edit icon or an editor after each handler, and that
    every cell the virtualized grid asks for can be resolved. */
module GridProperties {
  import opened JsValue
  import opened Metadata
  import opened GridConstants
  import opened Interaction
  import opened ColumnLayout
  import opened CellResolver

  predicate ShowsEditIcon(r: Result<CellData>) {
    r.Ok? && r.value.Fragment? && r.value.editIcon.EditIcon?
  }

  predicate ShowsEditor(r: Result<CellData>) {
    r.Ok? && r.value.Fragment? && r.value.editor.EditorPanel?
  }

  /** Every cell inside the grid's row and column counts resolves without the
      `items[rowIndex - 1]` failure, and its width is defined. */
  lemma GridCellsResolve(props: Props, s: UiState, extensionOf: string -> string, width: real, columnIndex: int, rowIndex: int)
    requires 0 <= columnIndex < ColumnCount(props.metadataColumnsToShow)
    requires 0 <= rowIndex < RowCount(props.currentCollection)
    ensures CellContent(props, s, extensionOf, columnIndex, rowIndex).Ok?
    ensures rowIndex != HeaderRowIndex ==> CellContent(props, s, extensionOf, columnIndex, rowIndex).value.Body?
    ensures columnIndex >= FixedColumnsNumber ==>
      ColumnWidth(width, |props.metadataColumnsToShow|, columnIndex) >= MinMetadataColumnWidth
  {
  }

  /** A cell of a plain-string column never offers the edit icon, whatever the state. */
  lemma PlainColumnsNeverEditable(props: Props, s: UiState, extensionOf: string -> string, columnIndex: int, rowIndex: int)
    requires FixedColumnsNumber <= columnIndex < ColumnCount(props.metadataColumnsToShow)
    requires props.metadataColumnsToShow[columnIndex - FixedColumnsNumber].Plain?
    ensures !ShowsEditIcon(GridCellData(props, s, extensionOf, columnIndex, rowIndex))
  {
  }

  /** At most one cell shows the edit icon and at most one shows the editor. */
  lemma AtMostOneEditableCell(props: Props, s: UiState, extensionOf: string -> string, c1: int, r1: int, c2: int, r2: int)
    ensures ShowsEditIcon(GridCellData(props, s, extensionOf, c1, r1)) && ShowsEditIcon(GridCellData(props, s, extensionOf, c2, r2))
      ==> c1 == c2 && r1 == r2
    ensures ShowsEditor(GridCellData(props, s, extensionOf, c1, r1)) && ShowsEditor(GridCellData(props, s, extensionOf, c2, r2))
      ==> c1 == c2 && r1 == r2
  {
  }

  /** In the initial state (after mounting, and after any change of items) no
      cell offers the edit icon or shows the editor. */
  lemma InitialStateShowsValues(props: Props, extensionOf: string -> string, columnIndex: int, rowIndex: int)
    requires 0 <= columnIndex && 0 <= rowIndex
    ensures !ShowsEditIcon(GridCellData(props, InitialState(), extensionOf, columnIndex, rowIndex))
    ensures !ShowsEditor(GridCellData(props, InitialState(), extensionOf, columnIndex, rowIndex))
    ensures var r := GridCellData(props, InitialState(), extensionOf, columnIndex, rowIndex);
      r.Ok? && r.value.Fragment? ==> r.value.editor == Blank
  {
  }

  /** After the pointer leaves, no cell offers the edit icon; editors stay as they were. */
  lemma MouseLeaveHidesEditIcons(props: Props, s: UiState, extensionOf: string -> string, columnIndex: int, rowIndex: int)
    requires 0 <= columnIndex && 0 <= rowIndex
    ensures !ShowsEditIcon(GridCellData(props, MouseLeave(s), extensionOf, columnIndex, rowIndex))
    ensures ShowsEditor(GridCellData(props, MouseLeave(s), extensionOf, columnIndex, rowIndex))
        <==> ShowsEditor(GridCellData(props, s, extensionOf, columnIndex, rowIndex))
  {
  }

  /** Hovering never opens or closes an editor: edit mode and hover are independent. */
  lemma HoverKeepsEditors(props: Props, s: UiState, extensionOf: string -> string, c: int, r: int, columnIndex: int, rowIndex: int)
    ensures var before := GridCellData(props, s, extensionOf, columnIndex, rowIndex);
            var after := GridCellData(props, MouseEnter(s, c, r), extensionOf, columnIndex, rowIndex);
      before.Ok? && before.value.Fragment? ==>
        after.Ok? && after.value.Fragment? && after.value.editor == before.value.editor
  {
  }

  /** Clicking the edit icon of a cell turns that very cell into the editor,
      seeded with the value the icon carried, and hides its raw value. */
  lemma EditIconOpensEditor(props: Props, s: UiState, extensionOf: string -> string, columnIndex: int, rowIndex: int)
    requires ShowsEditIcon(GridCellData(props, s, extensionOf, columnIndex, rowIndex))
    ensures var req := GridCellData(props, s, extensionOf, columnIndex, rowIndex).value.editIcon.onClick;
            var after := GridCellData(props, EditIconClick(s, req.columnIndex, req.rowIndex, req.value), extensionOf, columnIndex, rowIndex);
      && req.columnIndex == columnIndex && req.rowIndex == rowIndex
      && ShowsEditor(after)
      && after.value.editor.editor.dataValue == req.value
      && after.value.editor.editor.save.currentValue == req.value
      && after.value.rawValue == Blank
      && after.value.editIcon == Blank
  {
  }

  /** Cancelling closes every editor, and a cell that showed one shows again
      the value it shows when nothing is edited. */
  lemma CancelClosesEditor(props: Props, s: UiState, extensionOf: string -> string, columnIndex: int, rowIndex: int)
    requires 0 <= columnIndex && 0 <= rowIndex
    ensures !ShowsEditor(GridCellData(props, CancelEdit(s), extensionOf, columnIndex, rowIndex))
    ensures ShowsEditor(GridCellData(props, s, extensionOf, columnIndex, rowIndex)) ==>
      var after := GridCellData(props, CancelEdit(s), extensionOf, columnIndex, rowIndex);
      var idle := GridCellData(props, InitialState(), extensionOf, columnIndex, rowIndex);
      after.Ok? && after.value.Fragment? && after.value.rawValue == idle.value.rawValue
  {
  }

  /** A worked example: one spreadsheet item with a Status field, a plain
      "Status" column, an editable "Status" descriptor and an "Owner" column
      that no field matches. */
  lemma SpreadsheetScenario(extensionOf: string -> string)
    ensures var status := MetadataField("Status", "string", Str("Open"), None);
            var item := Item("1", "a.xlsx", Some([status]), None);
            var props := Props(Collection(Some([item])), [Plain("Status"), Config("Status", true), Plain("Owner")]);
            var s0 := InitialState();
            var s1 := MouseEnter(s0, 3, 1);
            var s2 := EditIconClick(s1, 3, 1, Str("Open"));
      && RowCount(props.currentCollection) == 2 && ColumnCount(props.metadataColumnsToShow) == 5
      && GridHeaderData(props.metadataColumnsToShow, 1) == NameLabel
      && GridHeaderData(props.metadataColumnsToShow, 2) == Title("Status")
      && GridCellData(props, s0, extensionOf, 0, 1) == Ok(FileIcon(extensionOf("a.xlsx")))
      && GridCellData(props, s0, extensionOf, 1, 1) == Ok(NameButton("a.xlsx", item))
      && GridCellData(props, s0, extensionOf, 2, 1) == Ok(Fragment(Text(Str("Open")), Blank, Blank))
      && GridCellData(props, s1, extensionOf, 2, 1) == Ok(Fragment(Text(Str("Open")), Blank, Blank))
      && GridCellData(props, s1, extensionOf, 3, 1)
           == Ok(Fragment(Text(Str("Open")), EditIcon(EditRequest(3, 1, Str("Open"))), Blank))
      && GridCellData(props, s2, extensionOf, 3, 1)
           == Ok(Fragment(Blank, Blank, EditorPanel(Editor("1Status", Str("Open"), "string", [],
                                                           SaveRequest(item, "Status", Str("Open"), Str("Open"))))))
      && GridCellData(props, s2, extensionOf, 4, 1) == Ok(Undefined)
  {
    var status := MetadataField("Status", "string", Str("Open"), None);
    var fields := [status];
    assert FindField(fields, "Status") == Some(status);
    assert FindField(fields, "Owner") == None;
    assert "1" + "Status" == "1Status";
  }

  /** Clearing the editor's input hides the editor: once the working value of
      the edited cell becomes the empty string, that cell shows neither its
      value, nor the edit icon, nor the editor with its cancel and save icons;
      only the empty working value is rendered. The cell stays edited until the
      items change or an edit is started on another cell; hovering and leaving
      do not end it. */
  lemma ClearingInputHidesEditor(props: Props, s: UiState, extensionOf: string -> string, columnIndex: int, rowIndex: int)
    requires ShowsEditor(GridCellData(props, s, extensionOf, columnIndex, rowIndex))
    ensures var after := GridCellData(props, EditorChange(s, Str("")), extensionOf, columnIndex, rowIndex);
      && after.Ok? && after.value.Fragment?
      && after.value.rawValue == Blank
      && !after.value.editIcon.EditIcon?
      && after.value.editor == Text(Str(""))
    ensures EditedAt(EditorChange(s, Str("")), columnIndex, rowIndex)
    ensures forall c, r :: EditedAt(MouseLeave(MouseEnter(EditorChange(s, Str("")), c, r)), columnIndex, rowIndex)
    ensures forall c, r, v :: !(c == columnIndex && r == rowIndex) ==>
      !EditedAt(EditIconClick(EditorChange(s, Str("")), c, r, v), columnIndex, rowIndex)
  {
  }

  /** A field value of 0 is falsy, so `value && isCellEditable && …` evaluates
      to the 0 itself, which React renders next to the raw value: the cell
      shows "00", whether or not it is hovered or editable. */
  lemma ZeroValueShownTwice(item: Item, column: ColumnConfig, s: UiState, columnIndex: int, rowIndex: int)
    requires FindField(FieldsOf(item), ColumnName(column)).Some?
    requires FindField(FieldsOf(item), ColumnName(column)).value.value == Num(0.0)
    requires !EditedAt(s, columnIndex, rowIndex)
    ensures MetadataCell(item, Some(column), s, columnIndex, rowIndex)
      == Fragment(Text(Num(0.0)), Text(Num(0.0)), Blank)
  {
  }
}

=== FILE: Interaction.dfy ===
/** The component's transient interaction state and the partial `setState`
    merges its handlers perform, as functions from the old state to the new.
    A field a handler does not mention keeps its value. */
module Interaction {
  import opened JsValue
  import opened Metadata
  import opened GridConstants

  /** `State` of MetadataBasedItemList: the edited cell, the hovered cell (each
      -1/-1 for none) and the working copy of the value under edit (null = Absent). */
  datatype UiState = UiState(
    editedColumnIndex: int,
    editedRowIndex: int,
    hoveredColumnIndex: int,
    hoveredRowIndex: int,
    valueBeingEdited: Value)

  predicate EditedAt(s: UiState, columnIndex: int, rowIndex: int) {
    columnIndex == s.editedColumnIndex && rowIndex == s.editedRowIndex
  }

  predicate HoveredAt(s: UiState, columnIndex: int, rowIndex: int) {
    columnIndex == s.hoveredColumnIndex && rowIndex == s.hoveredRowIndex
  }

  /** `getInitialState`: nothing edited, nothing hovered, no working value.
      No cell of the grid (all indices are non-negative) is edited or hovered. */
  function InitialState(): (s: UiState)
    ensures forall c, r :: 0 <= c && 0 <= r ==> !EditedAt(s, c, r) && !HoveredAt(s, c, r)
    ensures s.valueBeingEdited == Absent
  {
    UiState(NoIndex, NoIndex, NoIndex, NoIndex, Absent)
  }

  /** `handleMouseEnter`: the entered cell becomes the only hovered cell; the edit part is untouched. */
  function MouseEnter(s: UiState, columnIndex: int, rowIndex: int): (t: UiState)
    ensures forall c, r :: HoveredAt(t, c, r) <==> c == columnIndex && r == rowIndex
    ensures forall c, r :: EditedAt(t, c, r) <==> EditedAt(s, c, r)
    ensures t.valueBeingEdited == s.valueBeingEdited
  {
    s.(hoveredColumnIndex := columnIndex, hoveredRowIndex := rowIndex)
  }

  /** `handleMouseLeave`: no grid cell stays hovered; the edit part is untouched. */
  function MouseLeave(s: UiState): (t: UiState)
    ensures forall c, r :: 0 <= c && 0 <= r ==> !HoveredAt(t, c, r)
    ensures t.hoveredColumnIndex == NoIndex && t.hoveredRowIndex == NoIndex
    ensures forall c, r :: EditedAt(t, c, r) <==> EditedAt(s, c, r)
    ensures t.valueBeingEdited == s.valueBeingEdited
  {
    s.(hoveredRowIndex := NoIndex, hoveredColumnIndex := NoIndex)
  }

  /** `handleEditIconClick`: the clicked cell becomes the only edited cell and its
      value seeds the working copy; hover is untouched. */
  function EditIconClick(s: UiState, columnIndex: int, rowIndex: int, value: Value): (t: UiState)
    ensures forall c, r :: EditedAt(t, c, r) <==> c == columnIndex && r == rowIndex
    ensures forall c, r :: HoveredAt(t, c, r) <==> HoveredAt(s, c, r)
    ensures t.valueBeingEdited == value
  {
    s.(editedColumnIndex := columnIndex, editedRowIndex := rowIndex, valueBeingEdited := value)
  }

  /** `handleCancelEdit`: no grid cell stays edited; the working value and hover are untouched. */
  function CancelEdit(s: UiState): (t: UiState)
    ensures forall c, r :: 0 <= c && 0 <= r ==> !EditedAt(t, c, r)
    ensures t.editedColumnIndex == NoIndex && t.editedRowIndex == NoIndex
    ensures forall c, r :: HoveredAt(t, c, r) <==> HoveredAt(s, c, r)
    ensures t.valueBeingEdited == s.valueBeingEdited
  {
    s.(editedColumnIndex := NoIndex, editedRowIndex := NoIndex)
  }

  /** The editor's `onChange`: only the working value changes. */
  function EditorChange(s: UiState, changedValue: Value): (t: UiState)
    ensures t.valueBeingEdited == changedValue
    ensures forall c, r :: EditedAt(t, c, r) <==> EditedAt(s, c, r)
    ensures forall c, r :: HoveredAt(t, c, r) <==> HoveredAt(s, c, r)
  {
    s.(valueBeingEdited := changedValue)
  }

  /** `componentDidUpdate`: when the items differ by deep equality from the
      previous ones, the state goes back to the initial state; otherwise it is kept. */
  function AfterUpdate(s: UiState, previousItems: Option<seq<Item>>, currentItems: Option<seq<Item>>): (t: UiState)
    ensures currentItems != previousItems ==> t == InitialState()
    ensures currentItems != previousItems ==>
      t.valueBeingEdited == Absent && forall c, r :: 0 <= c && 0 <= r ==> !EditedAt(t, c, r) && !HoveredAt(t, c, r)
    ensures currentItems == previousItems ==> t == s
  {
    if currentItems != previousItems then InitialState() else s
  }
}

=== FILE: ItemList.dfy ===
/** The MetadataBasedItemList component itself: its props, the five state
    fields its handlers update in place, and the handlers. A `setState` merge
    is a method that assigns only the fields the handler names (its frame is
    exactly those fields). The two parent callbacks are modelled by the
    argument values the handlers hand to them. */
module ItemList {
  import opened JsValue
  import opened Metadata
  import opened GridConstants
  import opened Interaction

  /** The arguments of one `onMetadataUpdate(item, field, currentValue, editedValue)` call. */
  datatype MetadataUpdate = MetadataUpdate(item: Item, field: string, currentValue: Value, editedValue: Value)

  class MetadataBasedItemList {
    var props: Props
    var editedColumnIndex: int
    var editedRowIndex: int
    var hoveredColumnIndex: int
    var hoveredRowIndex: int
    var valueBeingEdited: Value

    /** `this.state` as a record. */
    function State(): (s: UiState)
      reads this
    {
      UiState(editedColumnIndex, editedRowIndex, hoveredColumnIndex, hoveredRowIndex, valueBeingEdited)
    }

    /** The constructor starts from `getInitialState()`. */
    constructor (props: Props)
      ensures this.props == props
      ensures State() == InitialState()
    {
      this.props := props;
      editedColumnIndex := NoIndex;
      editedRowIndex := NoIndex;
      hoveredRowIndex := NoIndex;
      hoveredColumnIndex := NoIndex;
      valueBeingEdited := Absent;
    }

    /** `componentDidUpdate(prevProps)`: back to the initial state when the
        current items are not deep-equal to the previous ones. */
    method ComponentDidUpdate(prevProps: Props)
      modifies this`editedColumnIndex, this`editedRowIndex, this`hoveredColumnIndex, this`hoveredRowIndex, this`valueBeingEdited
      ensures State() == AfterUpdate(old(State()), prevProps.currentCollection.items, props.currentCollection.items)
    {
      if props.currentCollection.items != prevProps.currentCollection.items {
        editedColumnIndex := NoIndex;
        editedRowIndex := NoIndex;
        hoveredRowIndex := NoIndex;
        hoveredColumnIndex := NoIndex;
        valueBeingEdited := Absent;
      }
    }

    /** A re-render with new props from the parent, followed by `componentDidUpdate`
        with the props it replaced. */
    method ReceiveProps(nextProps: Props)
      modifies this
      ensures props == nextProps
      ensures State() == AfterUpdate(old(State()), old(props).currentCollection.items, nextProps.currentCollection.items)
    {
      var prevProps := props;
      props := nextProps;
      ComponentDidUpdate(prevProps);
    }

    /** `handleItemClick`: `onItemClick` receives the item with permissions added. */
    method HandleItemClick(item: Item) returns (clicked: Item)
      ensures clicked.permissions == Some(Permissions(true, true))
      ensures clicked == item.(permissions := clicked.permissions)
    {
      clicked := WithPermissions(item);
    }

    /** `handleEditIconClick`. */
    method HandleEditIconClick(columnIndex: int, rowIndex: int, value: Value)
      modifies this`editedColumnIndex, this`editedRowIndex, this`valueBeingEdited
      ensures State() == EditIconClick(old(State()), columnIndex, rowIndex, value)
    {
      editedColumnIndex := columnIndex;
      editedRowIndex := rowIndex;
      valueBeingEdited := value;
    }

    /** `handleCancelEdit`: only the edited cell is cleared; `onMetadataUpdate` is not called. */
    method HandleCancelEdit()
      modifies this`editedColumnIndex, this`editedRowIndex
      ensures State() == CancelEdit(old(State()))
    {
      editedColumnIndex := NoIndex;
      editedRowIndex := NoIndex;
    }

    /** `handleSave`: exactly one `onMetadataUpdate` call, with the item with
        permissions added and the other arguments in their original order.
        The method changes no field of the component. */
    method HandleSave(item: Item, field: string, currentValue: Value, editedValue: Value) returns (call: MetadataUpdate)
      ensures call.item.permissions == Some(Permissions(true, true))
      ensures call.item == item.(permissions := call.item.permissions)
      ensures call.field == field && call.currentValue == currentValue && call.editedValue == editedValue
    {
      call := MetadataUpdate(WithPermissions(item), field, currentValue, editedValue);
    }

    /** `handleMouseEnter`. */
    method HandleMouseEnter(columnIndex: int, rowIndex: int)
      modifies this`hoveredColumnIndex, this`hoveredRowIndex
      ensures State() == MouseEnter(old(State()), columnIndex, rowIndex)
    {
      hoveredColumnIndex := columnIndex;
      hoveredRowIndex := rowIndex;
    }

    /** `handleMouseLeave`. */
    method HandleMouseLeave()
      modifies this`hoveredColumnIndex, this`hoveredRowIndex
      ensures State() == MouseLeave(old(State()))
    {
      hoveredRowIndex := NoIndex;
      hoveredColumnIndex := NoIndex;
    }

    /** The field editor's `onChange`: only the working value changes. */
    method HandleEditorChange(changedValue: Value)
      modifies this`valueBeingEdited
      ensures State() == EditorChange(old(State()), changedValue)
    {
      valueBeingEdited := changedValue;
    }
  }
}

=== FILE: JsValue.dfy ===
/** JavaScript values as the metadata grid sees them: the value of a metadata
    field (or the working copy being edited) and JavaScript truthiness. */
module JsValue {

  /** lodash `get` and optional object properties: a property is either there or undefined. */
  datatype Option<+T> = None | Some(value: T) {
    function GetOr(default: T): T {
      match this
      case Some(v) => v
      case None => default
    }
  }

  /** A metadata field value: null/undefined, a string (text, date, enum key),
      a number (float field) or an array of strings (multi-select). Numbers are
      exact reals; NaN and the infinities are not modelled. */
  datatype Value = Absent | Str(text: string) | Num(number: real) | Strings(items: seq<string>)

  /** JavaScript truthiness (`!!v`): null/undefined, "" and 0 are falsy; every array is truthy. */
  predicate Truthy(v: Value) {
    match v
    case Absent => false
    case Str(s) => s != ""
    case Num(n) => n != 0.0
    case Strings(_) => true
  }
}

=== FILE: Metadata.dfy ===
/** The data the grid receives from its parent: items with their enterprise
    metadata fields, the column descriptors, and the lookups the component
    performs on them (MetadataBasedItemList.js). */
module Metadata {
  import opened JsValue

  /** One editable attribute of an item. `options` is undefined for field types without choices. */
  datatype MetadataField = MetadataField(name: string, fieldType: string, value: Value, options: Option<seq<string>>)

  datatype Permissions = Permissions(canPreview: bool, canUpload: bool)

  /** A file or folder. `enterpriseFields` stands for the property path
      `metadata.enterprise.fields`, which is undefined when any part of it is missing. */
  datatype Item = Item(id: string, name: string, enterpriseFields: Option<seq<MetadataField>>, permissions: Option<Permissions>)

  /** A metadata column: a bare field name, or a descriptor with a name and an edit flag
      (a descriptor without `canEdit` is written here with `canEdit` false). */
  datatype ColumnConfig = Plain(fieldName: string) | Config(name: string, canEdit: bool)

  /** `currentCollection`; its `items` may be undefined. */
  datatype Collection = Collection(items: Option<seq<Item>>)

  /** The props that carry data (the two callbacks are modelled as the values handlers return). */
  datatype Props = Props(currentCollection: Collection, metadataColumnsToShow: seq<ColumnConfig>)

  /** The item list, with the destructuring default `items = []`. */
  function ItemsOf(c: Collection): (items: seq<Item>)
    ensures c.items.Some? ==> items == c.items.value
    ensures c.items.None? ==> items == []
  {
    c.items.GetOr([])
  }

  /** `getProp(item, 'metadata.enterprise.fields', [])`. */
  function FieldsOf(item: Item): (fields: seq<MetadataField>)
    ensures item.enterpriseFields.Some? ==> fields == item.enterpriseFields.value
    ensures item.enterpriseFields.None? ==> fields == []
  {
    item.enterpriseFields.GetOr([])
  }

  /** `getMetadataColumnName`: the string itself, or the descriptor's `name`. */
  function ColumnName(column: ColumnConfig): (name: string)
    ensures column.Plain? ==> name == column.fieldName
    ensures column.Config? ==> name == column.name
  {
    match column
    case Plain(s) => s
    case Config(n, _) => n
  }

  /** `!!getProp(metadataColumn, 'canEdit', false)`: a missing column or a plain
      string has no `canEdit` property, so only a descriptor can be editable. */
  predicate CanEdit(column: Option<ColumnConfig>) {
    column.Some? && column.value.Config? && column.value.canEdit
  }

  /** `metadataColumnsToShow[columnIndex - FIXED_COLUMNS_NUMBER]`, undefined outside the array. */
  function ColumnAt(columns: seq<ColumnConfig>, offset: int): (c: Option<ColumnConfig>)
    ensures c.Some? <==> 0 <= offset < |columns|
    ensures c.Some? ==> c.value == columns[offset]
  {
    if 0 <= offset < |columns| then Some(columns[offset]) else None
  }

  /** `getItemWithPermissions`: a copy of the item whose `permissions` are
      `{can_preview: true, can_upload: true}`, whatever they were before. */
  function WithPermissions(item: Item): (r: Item)
    ensures r.permissions == Some(Permissions(true, true))
    ensures r.id == item.id && r.name == item.name && r.enterpriseFields == item.enterpriseFields
    ensures item.permissions == Some(Permissions(true, true)) <==> r == item
  {
    item.(permissions := Some(Permissions(true, true)))
  }

  /** Applying the augmentation twice is the same as applying it once. */
  lemma WithPermissionsIdempotent(item: Item)
    ensures WithPermissions(WithPermissions(item)) == WithPermissions(item)
  {
  }

  /** The position found by lodash `find(fields, ['name', name])`: the first field
      whose name equals `name`, or none when no field has that name. */
  function FindFieldIndex(fields: seq<MetadataField>, name: string): (r: Option<nat>)
    ensures r.Some? ==> r.value < |fields| && fields[r.value].name == name
    ensures r.Some? ==> forall j :: 0 <= j < r.value ==> fields[j].name != name
    ensures r.None? <==> forall j :: 0 <= j < |fields| ==> fields[j].name != name
  {
    if |fields| == 0 then None
    else if fields[0].name == name then Some(0)
    else
      match FindFieldIndex(fields[1..], name)
      case None => None
      case Some(i) => Some(i + 1)
  }

  /** `find(fields, ['name', name])`: the first field named `name`, if any. */
  function FindField(fields: seq<MetadataField>, name: string): (r: Option<MetadataField>)
    ensures r.Some? ==> r.value.name == name && r.value in fields
    ensures r.None? <==> forall f :: f in fields ==> f.name != name
    ensures forall j :: 0 <= j < |fields| && fields[j].name == name ==> r == Some(fields[j]) || (exists k :: 0 <= k < j && fields[k].name == name)
  {
    match FindFieldIndex(fields, name)
    case None => None
    case Some(i) => Some(fields[i])
  }
}
